=== FILE: README.md ===
# Jersey Smasher game rules in Dafny

This project models the game-rule layer of the Jersey Smasher browser game (`sketch.js`). In the game, a slingshot
launches a ball at piles of jerseys that have hit points. Once every jersey is gone, a moving trophy is revealed,
and hitting it wins the round. The model covers:

- jersey health by colour, and damage;
- collision pairs resolved one at a time (damage tiers, the ×10 super power, destruction and splicing, the trophy strike);
- the super-power meter;
- the trophy's oscillation;
- ball and round resets, with the 3 + 4 + 3 piles plus 3 single jerseys;
- the off-screen sweep and the ball's auto-reset;
- the title / gameplay / victory state machine, and which inputs each mode accepts.

The model is functional. A `GameState` value holds the mode, the live jersey list, the trophy, the meter, the ball
flags, the trophy-highlight flag, the title-screen frame count, and whether the victory screen has been drawn. Every handler is a pure function from state to state. A collision batch is a
left fold over its pairs, in the order they were delivered.

The physics engine, drawing, audio and randomness are not modelled. They come in as inputs:

- a `PhysicsStep` carries the collision pairs, the size of each impact, the body positions and the ball's velocity;
- `Rolls` carries the random colours, pile offsets and single-jersey positions;
- the cursor position and the projected stretch point `rim` come with drag and click events.

Body identities are naturals handed out from `nextBody`, much as the engine numbers its bodies. This is what makes
"no two jerseys share a body" provable.

Modules: `Geometry` (points, button boxes), `Jerseys`, `SuperPower`, `Trophies`, `Session` (state, resets, layout),
`Lifecycle` (off-screen sweep, ball status), `Collisions`, `Controls` (input routing, frames, the state-machine
invariant).

Some behaviours of the code are easy to get wrong. The model pins them down:

- **Same-batch clearing.** The jersey list changes while the collision batch is walked. So a lethal hit earlier in a
  batch unlocks the trophy for a later pair of the same batch (`Collisions.SameBatchClearingUnlocksTrophy`).
- **Activation.** Activating the super power does not use up the charge. The charge stays at the threshold until the
  launch, and the launch empties the meter (`SuperPower.Activate`, `SuperPower.OnLaunch`).
- **Power only in the slingshot.** Activation needs an unlaunched ball. The launch applies the ×10 force and then
  switches the power off at once. So in every reachable state a released ball never carries an active super power,
  and a ball in flight never deals the ×10 damage: its hits cost 1 or 2. Only a ball still in the slingshot can
  deal 10 or 20 (`Controls.PowerHeld`, `Controls.RunKeepsValid`, `Controls.LaunchedBallHitsUnpowered`).
- **Health.** Health is not clamped. A destroyed jersey object can go negative (`Jerseys.HealthGoesNegative`), but
  every jersey still in the list has health in `(0, maxHealth]` (`Session.Valid`).
- **The R key.** R starts a new round from any mode, the title and victory screens included (`Controls.KeyPressed`).
- **Buttons exist only once drawn.** The title screen draws PLAY from its 241st frame on, and PLAY AGAIN exists once
  the victory screen has been drawn. A click before that finds no button and changes nothing
  (`Controls.PlayAppearsOnFrame241`, `Controls.MousePressed`).
- **The sweep.** The sweep removes jerseys only, never the ball. It has no upper bound (`Lifecycle.OnStage`).

A ball–jersey pair can name a body that is no longer in the list. This happens when an earlier pair of the same
batch destroyed that jersey. The game then damages the detached object again. Its health is already at most 0, so
the hit is lethal again: the list is unchanged, and the highlight is raised if the list is empty. The model treats
every body that is not in the list this way (`Collisions.Lethal`).

## Model

| member | source | states |
|---|---|---|
| `Geometry.PlayButton` | sketch.js:925-932 | The PLAY button is 200×80, or 300×100 on touch devices, centred horizontally and at 70% of the height. |
| `Geometry.RestartButton` | sketch.js:2040-2047 | The PLAY AGAIN button is 250×80, or 300×100 on touch devices, centred horizontally and at 75% of the height. |
| `Geometry.GameplayButtonsDisjoint` | sketch.js:1317-1344 | The reset-ball, reset-game and super-power boxes are pairwise disjoint. One click hits at most one of them. |
| `Jerseys.MaxHealthOf` | sketch.js:97-113 | A jersey's starting health is 2, 4 or 6. |
| `Jerseys.HealthOrdersKinds` | sketch.js:97-113 | Colours have distinct health, with black < blue < red. Together with the 2/4/6 range, this pins black 2, blue 4, red 6. |
| `Jerseys.NewJersey` | sketch.js:93-113 | A new jersey is intact (health equals its colour's maximum) and alive, on the given body, colour and position. |
| `Jerseys.Damage` | sketch.js:228-235 | Health drops by exactly the amount, with no clamping. The result says "destroyed" iff the new health is ≤ 0. Nothing else changes. |
| `Jerseys.SurvivingHitKeepsAlive` | sketch.js:228-235 | A positive hit that does not destroy an alive jersey leaves it alive, with strictly less health. |
| `Jerseys.HealthGoesNegative` | sketch.js:228-235 | A black jersey hit for 20 ends at health -18 and reports destroyed. |
| `Jerseys.DestroyedStaysDestroyed` | sketch.js:228-235 | A jersey at health ≤ 0 reports destroyed again on any further positive hit. |
| `Jerseys.HitsAccumulate` | sketch.js:228-235 | After any sequence of hits, health has dropped by their sum and nothing else has changed. |
| `Jerseys.RedTakesThreeHardHits` | sketch.js:97-113 | A red jersey survives two hard hits (2 + 2, health 2 left). A third hard hit destroys it. |
| `SuperPower.Recharge` | sketch.js:2071-2079 | While idle, the charge becomes min(counter, 10). While active, the meter is unchanged. |
| `SuperPower.RecordHit` | sketch.js:1552-1557 | A non-lethal hit adds exactly 1 to the counter, keeps the meter valid, and keeps the charge ≤ 10. |
| `SuperPower.Activate` | sketch.js:2082-2092 | The meter becomes active iff it was active, or it has charge ≥ 10 and the ball is not released. Counter and charge are never touched. |
| `SuperPower.ActivateRejected` | sketch.js:2082-2092 | With charge < 10, or already active, or the ball released, activation changes nothing. |
| `SuperPower.OnLaunch` | sketch.js:1425-1428 | After a launch the meter is idle. An active meter is emptied to 0/0. An idle meter is kept unchanged, so its charge carries over. |
| `SuperPower.ActivateThenLaunch` | sketch.js:2095-2099 | A full idle meter activates, and the following launch empties it: one shot per charge. |
| `SuperPower.RunKeepsValid` | sketch.js:2071-2099 | Under any sequence of hits, presses, launches and clears, the charge stays in [0, 10]. An active meter always holds the full charge. |
| `Trophies.Clamp` | sketch.js:294-298 | The clamped x lies in [width-250, width-150]. An x already in the band is unchanged. An x outside snaps to the nearer limit. |
| `Trophies.Update` | sketch.js:281-309 | While jerseys remain, nothing changes. Otherwise y is kept and the timer stays ≤ 180. Direction flips, and the timer restarts, exactly when the timer passes 180. x takes the one-pixel step in the new direction if that stays in the band, and otherwise stops at the nearer limit. Validity (direction ±1) is preserved. |
| `Trophies.Reset` | sketch.js:340-351 | The trophy goes to (width-200, 200), the middle of the band, moving right with its timer at 0. |
| `Trophies.ResetIdempotent` | sketch.js:340-351 | A reset does not depend on the trophy's prior state, and a second reset changes nothing. |
| `Trophies.CountsUpAfterReset` | sketch.js:285-291 | After a reset and k ≤ 180 successive calls of the trophy's update with no jersey left (no engine motion in between), the trophy still moves right with its timer at k. |
| `Trophies.ParksAtRightLimit` | sketch.js:272-298 | After a reset and k successive calls of the trophy's update with no jersey left (no engine motion in between), x is width-200+k up to the 50th call. From the 50th call until the turn at the 181st, the clamp holds x at width-150. y stays 200. |
| `Trophies.TurnsAtFrame181` | sketch.js:285-291 | On the 181st successive call of the trophy's update after a reset, with no jersey left, the trophy turns left and its timer restarts. |
| `Trophies.FrozenWhileJerseysRemain` | sketch.js:281-283 | While jerseys remain, any number of successive calls of the trophy's update leave the trophy unchanged. The engine may still move it between calls. |
| `Session.ResetBall` | sketch.js:1613-1633 | The new ball is static at (150, height-150) with released, beingDragged and hasCollided all false. Nothing else in the state changes. |
| `Session.ResetBallForgetsOldBall` | sketch.js:1613-1633 | The reset ball does not depend on the old ball, and resetting twice is resetting once. |
| `Session.JerseyPile` | sketch.js:1666-1685 | A pile of the given height: jersey i is intact, takes the i-th drawn colour and offset, stands 80·i above the base, and gets body first+i. |
| `Session.Singles` | sketch.js:1651-1663 | The single jerseys are intact, at their drawn positions and colours, on consecutive fresh bodies. |
| `Session.RandomJerseys` | sketch.js:1636-1685 | Exactly 13 intact jerseys are built whatever `count` is, on consecutive bodies. Three piles of 3, 4 and 3 stand at 40%, 60% and 75% of the width plus each drawn offset, with jersey i of a pile at height-90-80·i. The 3 singles follow at their drawn positions. Every jersey has its drawn colour. |
| `Session.ResetGame` | sketch.js:1688-1703 | The result is a fresh valid round: a ready ball, the trophy reset, the highlight off and the meter empty. Its jerseys are exactly the 3 + 4 + 3 + 3 layout drawn from the rolls, on the next 13 body ids. The mode, screen, title timer and PLAY AGAIN flag are unchanged. |
| `Session.ResetTwiceSameShape` | sketch.js:1688-1703 | Two successive round resets both give 13 jerseys, and no body of the first round is reused in the second. |
| `Session.Setup` | sketch.js:708-759 | The start state is valid, on the title screen with its timer at 0 and no PLAY AGAIN button yet. Its jerseys are the layout drawn from the rolls on bodies 0 to 12. The ball is static at (150, height-200) with no flag set. The trophy is at (width-200, 200), moving right with its timer at 0. The meter is empty and the highlight is off. |
| `Lifecycle.Survivors` | sketch.js:1870-1895 | A jersey is kept iff it was there and is on stage: -400 ≤ x ≤ width+400 and y ≤ height+400, with no upper bound. |
| `Lifecycle.SurvivorsDistributes` | sketch.js:1878-1894 | Filtering a concatenation filters each part, so survivors keep their original order. |
| `Lifecycle.SurvivorsIdempotent` | sketch.js:1878-1894 | Sweeping again at the same positions removes nothing more. |
| `Lifecycle.SurvivorsKeepsDistinct` | sketch.js:1878-1894 | The sweep keeps bodies distinct. |
| `Lifecycle.Sweep` | sketch.js:1870-1895 | Keeps exactly the on-stage jerseys. Raises the highlight iff a removal empties a non-empty list. Changes nothing else and preserves validity. |
| `Lifecycle.SweepFromBack` | sketch.js:1878-1894 | The source's backward splice loop computes exactly the filter, and its "emptied" signal fires iff a non-empty list ends empty. |
| `Lifecycle.CheckBallStatus` | sketch.js:1594-1610 | A released ball is reset iff it has stopped (both velocity components below 0.01 in size) or it is more than 50 past the left, right or bottom edge. Otherwise nothing changes. |
| `Collisions.HitDamage` | sketch.js:1526-1531 | The damage is in {1, 2, 10, 20}. It is ≥ 10 iff the super power is active, and it is 2 or 20 iff the impact exceeds 10. |
| `Collisions.IndexOf` | sketch.js:1538-1539 | Returns the first index holding the body, or -1 iff no jersey has that body. |
| `Collisions.RemoveBody` | sketch.js:1537-1542 | With the body absent, the list is unchanged. Otherwise it is exactly one shorter, and no new element appears. |
| `Collisions.RemoveBodyIsWithout` | sketch.js:1537-1542 | With distinct bodies, splicing by body equals the order-preserving filter that drops that body. |
| `Collisions.RemoveBodyIdempotent` | sketch.js:1537-1542 | Destroying the same jersey twice leaves the list as destroying it once. |
| `Collisions.RemoveBodyKeepsDistinct` | sketch.js:1537-1542 | Splicing out one jersey keeps bodies distinct. |
| `Collisions.Strike` | sketch.js:1533-1558 | A hit destroys iff the body is not live or the damage reaches its health. A destroyed jersey is spliced out. A surviving one is damaged in place, by exactly the damage. |
| `Collisions.HitJersey` | sketch.js:1515-1560 | A lethal hit splices the body out, leaves the meter alone, and raises the highlight iff the list is now empty. A non-lethal hit lowers the struck jersey's health by exactly the damage and leaves every other jersey as it was. It counts one hit on the meter and leaves the highlight alone. |
| `Collisions.HitJerseyKeepsValid` | sketch.js:1533-1558 | After a hit, every jersey left is alive, with distinct bodies, and the meter stays valid. |
| `Collisions.ResolvePair` | sketch.js:1488-1511 | hasCollided becomes true iff the pair touches the ball. A ball–jersey pair has exactly the hit's effect on the jerseys, the meter and the highlight. A ball–trophy pair wins iff the list is empty at that moment, and changes neither the jerseys nor the meter. No other pair changes the mode. |
| `Collisions.ResolvePairKeepsValid` | sketch.js:1488-1511 | Resolving one pair keeps the state valid. |
| `Collisions.ResolveBatch` | sketch.js:1488-1512 | After a batch, hasCollided is set iff some pair touched the ball. The mode is kept or becomes victory. The list never grows. The ball's released flag and whether the power is active are unchanged. |
| `Collisions.ResolveBatchConcat` | sketch.js:1491-1511 | Resolving a + b equals resolving a and then b: pairs are handled one at a time. |
| `Collisions.PairVictory` | sketch.js:1563-1575 | After one pair the game is won iff it already was, or the pair is a ball–trophy pair and no jersey is left. |
| `Collisions.VictoryInBatch` | sketch.js:1488-1575 | A batch ends in victory iff it started there, or some ball–trophy pair arrived when the list left by the earlier pairs was empty. |
| `Collisions.ResolveBatchKeepsValid` | sketch.js:1488-1560 | Any batch keeps the state valid. |
| `Collisions.SameBatchClearingUnlocksTrophy` | sketch.js:1488-1575 | With one jersey left, [lethal hit, trophy strike] wins. [strike, hit] does not win, but it clears the field and raises the highlight. |
| `Collisions.PoweredHitDestroysRed` | sketch.js:1526-1558 | A soft hit on a full red jersey destroys it when powered (damage 10). Unpowered, it costs 1 health and counts one hit on the meter. |
| `Controls.Relocate` | sketch.js:1077 | Every jersey keeps its body, colour and health, and moves to the position the engine reports for its body, if any. |
| `Controls.ApplyPhysics` | sketch.js:1077 | A physics step moves the jerseys, the ball and the trophy, and changes nothing else. |
| `Controls.ApplyPhysicsKeepsValid` | sketch.js:1077 | Moving bodies keeps the state valid. |
| `Controls.GameplayFrame` | sketch.js:1069-1122 | After the engine has moved the bodies and the batch is resolved: the jerseys left are exactly the batch's survivors that are on stage, and the meter is the batch's meter. The ball is the one the ball check leaves. The highlight is raised iff the batch raised it or the sweep emptied the list. With jerseys left, the trophy stays where the engine put it; with none, it takes one update step from there. The frame ends in victory iff it started there, or a ball–trophy pair of the batch met a list already emptied by earlier pairs. |
| `Controls.GameplayFrameKeepsValid` | sketch.js:1069-1122 | A gameplay frame keeps the state valid. |
| `Controls.Draw` | sketch.js:820-838 | A title frame only advances the title timer by one. A victory frame only draws the PLAY AGAIN button. A gameplay frame is exactly one gameplay step: physics, collisions, ball check, trophy, sweep. |
| `Controls.MousePressed` | sketch.js:1261-1314 | Title: once PLAY is drawn (after 240 frames), a click on it runs the round reset on these rolls and enters gameplay; any other click does nothing. Victory: likewise with PLAY AGAIN, once drawn. Gameplay: the mode is kept, and a click is a ball reset, a round reset on these rolls, an activation attempt or nothing, depending on the box hit. |
| `Controls.KeyPressed` | sketch.js:1433-1444 | R or r runs the round reset on these rolls and enters gameplay, from any mode. Space resets the ball only in gameplay. Other keys do nothing. |
| `Controls.MouseDragged` | sketch.js:1346-1389 | Only a gameplay drag of an unreleased ball within 50 of the cursor grabs it. The ball goes to the cursor, or to the stretch circle beyond 100 from the anchor. Otherwise nothing changes. |
| `Controls.MouseReleased` | sketch.js:1392-1430 | Only in gameplay with the ball grabbed: the ball stops being dragged, is released and made dynamic, and keeps its position and collided flag. The meter gets the launch bookkeeping. Otherwise nothing changes. |
| `Controls.ModeMoves` | sketch.js:1261-1444 | The title screen is never re-entered. Victory comes only from a gameplay frame. Leaving title or victory for gameplay happens only through a drawn PLAY or PLAY AGAIN button or the R key, and always yields a fresh round. |
| `Controls.GatedOutsideGameplay` | sketch.js:1346-1444 | Outside gameplay, drags, releases and the space bar change nothing. A frame changes only the title timer (which never goes back) or the PLAY AGAIN flag. |
| `Controls.StepKeepsValid` | sketch.js:1261-1444 | Every input keeps the state valid. |
| `Controls.StepKeepsPowerHeld` | sketch.js:2082-2092 | No input lets a released ball carry an active super power. Activation is refused once the ball is released, and the launch turns the power off. |
| `Controls.LaunchedBallHitsUnpowered` | sketch.js:1526-1531 | In a state where a launched ball has no active power, that ball's hits cost 2 if the impact exceeds 10 and 1 otherwise, never 10 or 20. |
| `Controls.TitleFramesCounted` | sketch.js:842-847 | From the start, title frames keep the title screen up and change nothing but the frame count, which equals the number of frames. |
| `Controls.PlayAppearsOnFrame241` | sketch.js:919-921 | From the start, PLAY exists iff more than 240 title frames have been drawn. A click before then does nothing, wherever it lands. |
| `Controls.RunKeepsValid` | sketch.js:708-759 | Every state reachable from the start is valid: live jerseys alive with distinct bodies, charge in [0, 10], trophy direction ±1 and timer in [0, 180]. A launched ball never carries an active super power. |

## Left out

- Drawing: the `display` methods, the title, gameplay and victory screens, the UI bar, the health-bar animation, glow
  and the "Hit the Trophy" text. They draw and change no game state.
- Particle effects: `Explosion`, `ExplosionParticle`, `FlameParticle` and `FlameTrail`. Their motion and lifespan are
  float physics and randomness for visuals. `FlameTrail.update` never grows the trail past its 80-particle cap; that
  is not modelled either.
- The physics engine: body creation, integration, gravity, forces and contact detection. Its results (pairs, impact
  sizes, positions, the ball's velocity) are inputs. The trophy band therefore holds right after `Trophies.Update`,
  not after the engine moves the trophy again.
- Trophies.CountsUpAfterReset, Trophies.ParksAtRightLimit, Trophies.TurnsAtFrame181: they repeat the trophy's own
  update with nothing in between. In the game the trophy is a dynamic body, and the engine moves it every gameplay
  frame, under gravity among other forces. So the positions these lemmas give, and the height 200, describe the
  update rule, not where the trophy is drawn. The timer and direction they give do hold frame by frame, since the
  engine never touches them.
- Trophies.FrozenWhileJerseysRemain: the trophy's own update leaves it unchanged while jerseys remain, but the engine
  can still move the body in those frames. `Controls.GameplayFrame` states this: the frame's trophy is the engine's
  position with the rest unchanged.
- The trigonometric drag clamp and the launch force. The point on the stretch circle is an input (`rim`). The launch
  force and its ×10 power multiplier move the ball only through the engine.
- Randomness in the layout. Colours, pile offsets and single positions are inputs (`Rolls`). Only the number of draws
  is required; their ranges are not constrained.
- The wait for the audio context before PLAY takes effect. It is modelled as a synchronous step.
- Audio, asset loading, fullscreen, the touch listeners, `windowResized` and `adjustGameElementsForScreenSize`
  (including its rescaling of the slingshot origin), and the portrait-orientation pause at the top of `draw`. These
  are host I/O. The touch handlers call the same routing as the mouse handlers.
- The performance heuristics (`detectDevicePerformance`, `applyPerformanceSettings`, `monitorFrameRate`). They rest on
  browser timing.
- The `gameStarted` flag and the per-jersey `lastDamageTime`. They are written but never read by the game rules. The
  title screen's text animation, which also reads the title timer, is drawing.
- A click on a button that has not been drawn yet. In the game, the click handler fails on the missing button before
  it writes anything. The model treats such a click as one that changes nothing.
- A jersey of a colour other than red, blue or black. The constructor would leave its health undefined, and the
  layout never asks for one, so `Kind` has only the three colours.
- `Jerseys.MaxHealthOf`: its own contract says only that the health is 2, 4 or 6. The per-colour values follow
  together with `Jerseys.HealthOrdersKinds`.
- `Collisions.ResolveBatch`: its contract gives the mode and the list size. The full victory condition over a batch
  is in `Collisions.VictoryInBatch`.

=== FILE: collisions.dfy ===
/** Collision resolution: each reported pair of bodies is classified, a ball
    striking a jersey damages it, a ball striking the trophy wins once no
    jersey is left, and any pair touching the ball marks it as having collided.
    Pairs are resolved one at a time, in the order the physics step reports them. */
module Collisions {
  import opened Geometry
  import opened Jerseys
  import opened Session
  import SuperPower

  /** What a colliding body is, as far as the game rules care. */
  datatype Role = BallBody | JerseyBody(id: BodyId) | TrophyBody | Scenery

  /** One collision pair; `impact` is the size of the two bodies' relative velocity. */
  datatype Pair = Pair(a: Role, b: Role, impact: real)

  predicate TouchesBall(p: Pair) {
    p.a == BallBody || p.b == BallBody
  }

  /** The ball against a jersey, in either order. */
  predicate StrikesJersey(p: Pair) {
    (p.a == BallBody && p.b.JerseyBody?) || (p.b == BallBody && p.a.JerseyBody?)
  }

  /** The jersey's body in a ball-jersey pair: the first body if it is a jersey, else the second. */
  function StruckBody(p: Pair): BodyId
    requires StrikesJersey(p)
  {
    if p.a.JerseyBody? then p.a.id else p.b.id
  }

  /** The ball against the trophy, in either order. */
  predicate StrikesTrophy(p: Pair) {
    (p.a == BallBody && p.b == TrophyBody) || (p.b == BallBody && p.a == TrophyBody)
  }

  /** Damage dealt by one hit: 2 for an impact above 10, otherwise 1, and ten times that while the super power is active. */
  function HitDamage(impact: real, active: bool): (d: int)
    ensures d == 1 || d == 2 || d == 10 || d == 20
    ensures d >= 10 <==> active
    ensures d == 2 || d == 20 <==> impact > 10.0
  {
    var base := if impact > 10.0 then 2 else 1;
    if active then base * 10 else base
  }

  /** Index of the first jersey with the given body, or -1 if there is none. */
  function IndexOf(js: seq<Jersey>, body: BodyId): (i: int)
    ensures -1 <= i < |js|
    ensures i >= 0 ==> js[i].body == body && forall k :: 0 <= k < i ==> js[k].body != body
    ensures i == -1 <==> forall k :: 0 <= k < |js| ==> js[k].body != body
  {
    if |js| == 0 then -1
    else if js[|js| - 1].body == body && IndexOf(js[..|js| - 1], body) == -1 then |js| - 1
    else IndexOf(js[..|js| - 1], body)
  }

  /** Splices out the first jersey with the given body; no change if there is none. */
  function RemoveBody(js: seq<Jersey>, body: BodyId): (r: seq<Jersey>)
    ensures IndexOf(js, body) == -1 ==> r == js
    ensures IndexOf(js, body) >= 0 ==> |r| == |js| - 1
    ensures forall j :: j in r ==> j in js
  {
    var i := IndexOf(js, body);
    if i < 0 then js else js[..i] + js[i + 1..]
  }

  /** Reference definition: the list without any jersey of that body, order kept. */
  function Without(js: seq<Jersey>, body: BodyId): seq<Jersey> {
    if |js| == 0 then []
    else Without(js[..|js| - 1], body) + (if js[|js| - 1].body == body then [] else [js[|js| - 1]])
  }

  /** With distinct bodies, splicing out by body is exactly filtering that body
      out: the jersey goes, every other one stays, in order. */
  lemma {:induction false} RemoveBodyIsWithout(js: seq<Jersey>, body: BodyId)
    requires DistinctBodies(js)
    ensures RemoveBody(js, body) == Without(js, body)
  {
    if |js| > 0 {
      var n := |js| - 1;
      var front := js[..n];
      assert DistinctBodies(front) by {
        forall i, k | 0 <= i < k < |front|
          ensures front[i].body != front[k].body
        {
          assert front[i] == js[i] && front[k] == js[k];
        }
      }
      RemoveBodyIsWithout(front, body);
      if js[n].body == body {
        RemoveLastMatch(js, body);
      } else {
        RemoveLastOther(js, body);
      }
    }
  }

  lemma RemoveLastMatch(js: seq<Jersey>, body: BodyId)
    requires DistinctBodies(js) && |js| > 0 && js[|js| - 1].body == body
    ensures RemoveBody(js, body) == Without(js, body) == js[..|js| - 1]
  {
    var n := |js| - 1;
    var front := js[..n];
    forall k | 0 <= k < |front|
      ensures front[k].body != body
    {
      assert front[k] == js[k];
    }
    assert IndexOf(front, body) == -1;
    assert IndexOf(js, body) == n;
    WithoutAbsent(front, body);
    assert js[..n] + js[n + 1..] == front;
  }

  lemma RemoveLastOther(js: seq<Jersey>, body: BodyId)
    requires |js| > 0 && js[|js| - 1].body != body
    ensures RemoveBody(js, body) == RemoveBody(js[..|js| - 1], body) + [js[|js| - 1]]
    ensures Without(js, body) == Without(js[..|js| - 1], body) + [js[|js| - 1]]
  {
    var front := js[..|js| - 1];
    var i := IndexOf(front, body);
    assert IndexOf(js, body) == i;
    if i >= 0 {
      SpliceBeforeLast(js, i);
    } else {
      SplitLast(js);
    }
  }

  lemma SplitLast(js: seq<Jersey>)
    requires |js| > 0
    ensures js == js[..|js| - 1] + [js[|js| - 1]]
  {
  }

  lemma SpliceBeforeLast(js: seq<Jersey>, i: int)
    requires 0 <= i < |js| - 1
    ensures js[..i] + js[i + 1..] == (js[..|js| - 1][..i] + js[..|js| - 1][i + 1..]) + [js[|js| - 1]]
  {
  }

  lemma {:induction false} WithoutAbsent(js: seq<Jersey>, body: BodyId)
    requires forall k :: 0 <= k < |js| ==> js[k].body != body
    ensures Without(js, body) == js
  {
    if |js| > 0 {
      WithoutAbsent(js[..|js| - 1], body);
    }
  }

  /** Destroying the same jersey twice leaves the list as destroying it once. */
  lemma RemoveBodyIdempotent(js: seq<Jersey>, body: BodyId)
    requires DistinctBodies(js)
    ensures RemoveBody(RemoveBody(js, body), body) == RemoveBody(js, body)
  {
    var i := IndexOf(js, body);
    if i >= 0 {
      var r := js[..i] + js[i + 1..];
      forall k | 0 <= k < |r|
        ensures r[k].body != body
      {
        if k < i { assert r[k] == js[k]; } else { assert r[k] == js[k + 1]; }
      }
    }
  }

  /** Whether a hit of `d` on the jersey with the given body destroys it. A body
      that is no longer in the list belongs to a jersey destroyed earlier in the
      same batch: its health is already at most 0, so any hit destroys it again. */
  predicate Lethal(js: seq<Jersey>, body: BodyId, d: int) {
    var i := IndexOf(js, body);
    i < 0 || js[i].health <= d
  }

  /** The jersey list after a hit of `d` on the given body, and whether the hit destroyed it. */
  function Strike(js: seq<Jersey>, body: BodyId, d: int): (r: (seq<Jersey>, bool))
    ensures r.1 == Lethal(js, body, d)
    ensures r.1 ==> r.0 == RemoveBody(js, body)
    ensures !r.1 ==>
              var i := IndexOf(js, body);
              r.0 == js[i := js[i].(health := js[i].health - d)]
  {
    var i := IndexOf(js, body);
    if i < 0 then (js, true)
    else
      var hit := Damage(js[i], d);
      if hit.1 then (js[..i] + js[i + 1..], true)
      else (js[i := hit.0], false)
  }

  /** The ball hits the jersey with the given body: a destroyed jersey is
      spliced out and lights the trophy if none is left; a surviving one is
      damaged in place and the hit is counted on the meter. */
  function HitJersey(s: GameState, body: BodyId, impact: real): (r: GameState)
    ensures var d := HitDamage(impact, s.meter.active);
            Lethal(s.jerseys, body, d) ==>
              && r.jerseys == RemoveBody(s.jerseys, body)
              && r.meter == s.meter
              && (r.trophyHighlight <==> s.trophyHighlight || |r.jerseys| == 0)
    ensures var d := HitDamage(impact, s.meter.active);
            !Lethal(s.jerseys, body, d) ==>
              var i := IndexOf(s.jerseys, body);
              && r.jerseys == s.jerseys[i := s.jerseys[i].(health := s.jerseys[i].health - d)]
              && r.meter == SuperPower.RecordHit(s.meter)
              && r.trophyHighlight == s.trophyHighlight
    ensures r.mode == s.mode && r.ball == s.ball && r.screen == s.screen && r.trophy == s.trophy && r.nextBody == s.nextBody
  {
    var struck := Strike(s.jerseys, body, HitDamage(impact, s.meter.active));
    if struck.1 then
      s.(jerseys := struck.0, trophyHighlight := s.trophyHighlight || |struck.0| == 0)
    else
      s.(jerseys := struck.0, meter := SuperPower.RecordHit(s.meter))
  }

  /** Resolves one pair: jersey damage, then the trophy strike, then the ball's collided flag. */
  function ResolvePair(s: GameState, p: Pair): (r: GameState)
    ensures r.ball == s.ball.(hasCollided := s.ball.hasCollided || TouchesBall(p))
    ensures StrikesTrophy(p) ==> r.mode == (if |s.jerseys| == 0 then Victory else s.mode)
    ensures !StrikesTrophy(p) ==> r.mode == s.mode
    ensures !StrikesJersey(p) ==> r.jerseys == s.jerseys && r.meter == s.meter && r.trophyHighlight == s.trophyHighlight
    ensures StrikesJersey(p) ==>
              var h := HitJersey(s, StruckBody(p), p.impact);
              r.jerseys == h.jerseys && r.meter == h.meter && r.trophyHighlight == h.trophyHighlight
    ensures r.screen == s.screen && r.trophy == s.trophy && r.nextBody == s.nextBody
  {
    var s1 := if StrikesJersey(p) then HitJersey(s, StruckBody(p), p.impact) else s;
    var s2 := if StrikesTrophy(p) && |s1.jerseys| == 0 then s1.(mode := Victory) else s1;
    if TouchesBall(p) then s2.(ball := s2.ball.(hasCollided := true)) else s2
  }

  /** Resolves a batch of pairs in delivery order; each pair sees the effects of those before it. */
  function ResolveBatch(s: GameState, pairs: seq<Pair>): (r: GameState)
    ensures r.ball.hasCollided <==> s.ball.hasCollided || exists i :: 0 <= i < |pairs| && TouchesBall(pairs[i])
    ensures r.mode == s.mode || r.mode == Victory
    ensures |r.jerseys| <= |s.jerseys|
    ensures r.screen == s.screen && r.trophy == s.trophy && r.nextBody == s.nextBody
    ensures r.ball.released == s.ball.released && r.meter.active == s.meter.active
  {
    if |pairs| == 0 then s
    else ResolvePair(ResolveBatch(s, pairs[..|pairs| - 1]), pairs[|pairs| - 1])
  }

  /** Batches compose: resolving `a + b` is resolving `a` and then `b`. */
  lemma {:induction false} ResolveBatchConcat(s: GameState, a: seq<Pair>, b: seq<Pair>)
    ensures ResolveBatch(s, a + b) == ResolveBatch(ResolveBatch(s, a), b)
  {
    if |b| > 0 {
      assert (a + b)[..|a + b| - 1] == a + b[..|b| - 1];
      ResolveBatchConcat(s, a, b[..|b| - 1]);
    } else {
      assert a + b == a;
    }
  }

  /** One pair wins exactly when it is a ball-trophy pair arriving with no jersey left. */
  lemma PairVictory(s: GameState, p: Pair)
    ensures ResolvePair(s, p).mode == Victory <==> s.mode == Victory || (StrikesTrophy(p) && s.jerseys == [])
  {
  }

  /** The `i`-th pair of the batch is a ball-trophy pair that finds the list
      already emptied by the pairs before it. */
  predicate TrophyWinAt(s: GameState, pairs: seq<Pair>, i: int) {
    0 <= i < |pairs| && StrikesTrophy(pairs[i]) && ResolveBatch(s, pairs[..i]).jerseys == []
  }

  /** The win condition over a batch: the batch ends in victory exactly when it
      started there or some ball-trophy pair arrived while the list was empty
      (counting removals by earlier pairs of the same batch). */
  lemma {:induction false} VictoryInBatch(s: GameState, pairs: seq<Pair>)
    ensures ResolveBatch(s, pairs).mode == Victory <==> s.mode == Victory || exists i :: TrophyWinAt(s, pairs, i)
  {
    if |pairs| > 0 {
      var n := |pairs| - 1;
      var prev := ResolveBatch(s, pairs[..n]);
      VictoryInBatch(s, pairs[..n]);
      PairVictory(prev, pairs[n]);
      assert ResolveBatch(s, pairs).mode == ResolvePair(prev, pairs[n]).mode;
      forall i | 0 <= i < n
        ensures TrophyWinAt(s, pairs, i) <==> TrophyWinAt(s, pairs[..n], i)
      {
        assert pairs[..n][..i] == pairs[..i];
      }
      assert TrophyWinAt(s, pairs, n) <==> StrikesTrophy(pairs[n]) && prev.jerseys == [];
    }
  }

  /** Splicing one jersey out keeps the bodies distinct. */
  lemma RemoveBodyKeepsDistinct(js: seq<Jersey>, body: BodyId)
    requires DistinctBodies(js)
    ensures DistinctBodies(RemoveBody(js, body))
  {
    var i := IndexOf(js, body);
    if i >= 0 {
      var r := js[..i] + js[i + 1..];
      forall a, b | 0 <= a < b < |r|
        ensures r[a].body != r[b].body
      {
        var a' := if a < i then a else a + 1;
        var b' := if b < i then b else b + 1;
        assert r[a] == js[a'] && r[b] == js[b'];
      }
    }
  }

  /** A hit keeps the state valid: destroyed jerseys leave the list, survivors stay alive. */
  lemma HitJerseyKeepsValid(s: GameState, body: BodyId, impact: real)
    requires Valid(s)
    ensures Valid(HitJersey(s, body, impact))
  {
    var d := HitDamage(impact, s.meter.active);
    var r := HitJersey(s, body, impact);
    if Lethal(s.jerseys, body, d) {
      RemoveBodyKeepsDistinct(s.jerseys, body);
    } else {
      var i := IndexOf(s.jerseys, body);
      SurvivingHitKeepsAlive(s.jerseys[i], d);
      assert r.jerseys == s.jerseys[i := Damage(s.jerseys[i], d).0];
      forall j | j in r.jerseys
        ensures Alive(j) && j.body < r.nextBody
      {
        var k :| 0 <= k < |r.jerseys| && r.jerseys[k] == j;
        if k != i {
          assert j == s.jerseys[k];
        }
      }
      forall a, b | 0 <= a < b < |r.jerseys|
        ensures r.jerseys[a].body != r.jerseys[b].body
      {
        assert r.jerseys[a].body == s.jerseys[a].body && r.jerseys[b].body == s.jerseys[b].body;
      }
    }
  }

  lemma ResolvePairKeepsValid(s: GameState, p: Pair)
    requires Valid(s)
    ensures Valid(ResolvePair(s, p))
  {
    if StrikesJersey(p) {
      HitJerseyKeepsValid(s, StruckBody(p), p.impact);
    }
  }

  /** Resolving any batch keeps the state valid. */
  lemma {:induction false} ResolveBatchKeepsValid(s: GameState, pairs: seq<Pair>)
    requires Valid(s)
    ensures Valid(ResolveBatch(s, pairs))
  {
    if |pairs| > 0 {
      ResolveBatchKeepsValid(s, pairs[..|pairs| - 1]);
      ResolvePairKeepsValid(ResolveBatch(s, pairs[..|pairs| - 1]), pairs[|pairs| - 1]);
    }
  }

  /** The ball against the last jersey, then against the trophy, in one batch: the
      destruction is applied first and the trophy strike that follows wins. The
      same two pairs in the opposite order do not win: the strike comes while the
      jersey still stands, and the hit only clears the field afterwards. */
  lemma SameBatchClearingUnlocksTrophy(s: GameState, j: Jersey, impact: real, trophyImpact: real)
    requires s.mode == Gameplay && s.jerseys == [j]
    requires j.health <= HitDamage(impact, s.meter.active)
    ensures var hit := Pair(BallBody, JerseyBody(j.body), impact);
            var strike := Pair(BallBody, TrophyBody, trophyImpact);
            && ResolveBatch(s, [hit, strike]).mode == Victory
            && ResolveBatch(s, [strike, hit]).mode == Gameplay
            && ResolveBatch(s, [strike, hit]).jerseys == []
            && ResolveBatch(s, [strike, hit]).trophyHighlight
  {
    var hit := Pair(BallBody, JerseyBody(j.body), impact);
    var strike := Pair(BallBody, TrophyBody, trophyImpact);
    assert IndexOf(s.jerseys, j.body) == 0;
    assert [hit, strike][..1] == [hit] && [strike, hit][..1] == [strike];
    assert [hit][..0] == [] && [strike][..0] == [];
    // hit first: the list is empty when the strike arrives
    var afterHit := ResolvePair(s, hit);
    assert afterHit.jerseys == [] && afterHit.mode == Gameplay;
    assert ResolveBatch(s, [hit]) == afterHit;
    assert ResolveBatch(s, [hit, strike]) == ResolvePair(afterHit, strike);
    // strike first: the jersey still stands
    var afterStrike := ResolvePair(s, strike);
    assert afterStrike.jerseys == [j] && afterStrike.meter == s.meter && afterStrike.mode == Gameplay;
    assert ResolveBatch(s, [strike]) == afterStrike;
    assert IndexOf(afterStrike.jerseys, j.body) == 0;
    assert ResolveBatch(s, [strike, hit]) == ResolvePair(afterStrike, hit);
  }

  /** With the super power active, even a soft hit deals 10: a red jersey at full
      health is destroyed, where without the power it would lose 1 and the meter would count the hit. */
  lemma PoweredHitDestroysRed(s: GameState, j: Jersey, impact: real)
    requires s.jerseys == [j] && Intact(j) && j.kind == Red && impact <= 10.0
    ensures s.meter.active ==> HitJersey(s, j.body, impact).jerseys == []
    ensures !s.meter.active ==> HitJersey(s, j.body, impact).jerseys == [j.(health := 5)]
    ensures !s.meter.active ==> HitJersey(s, j.body, impact).meter.counter == s.meter.counter + 1
  {
    assert IndexOf(s.jerseys, j.body) == 0;
    if !s.meter.active {
      assert !Lethal(s.jerseys, j.body, 1);
    }
  }
}

=== FILE: controls.dfy ===
/** The mode state machine: what each input does in each mode, and what one
    drawn frame does to the game state. Physics results (positions, velocities,
    collision pairs) and random draws come in as inputs. */
module Controls {
  import opened Geometry
  import opened Jerseys
  import opened Session
  import opened Lifecycle
  import opened Collisions
  import Trophies
  import SuperPower

  /** Cursor radius within which the ball can be grabbed, and the slingshot's
      maximum stretch, both squared. */
  const InteractRadiusSq: real := 2500.0
  const MaxStretchSq: real := 10000.0

  /** What one physics-engine step reports: the collision pairs in delivery
      order, where the ball, trophy and jerseys now are, and the ball's velocity. */
  datatype PhysicsStep = PhysicsStep(
    pairs: seq<Pair>,
    ballPos: Point,
    ballVel: Point,
    trophyPos: Point,
    jerseyPos: map<BodyId, Point>)

  /** Jerseys moved to where the engine reports them; those it reports nothing for stay put. */
  function Relocate(js: seq<Jersey>, at: map<BodyId, Point>): (r: seq<Jersey>)
    ensures |r| == |js|
    ensures forall k :: 0 <= k < |js| ==>
              r[k] == js[k].(pos := if js[k].body in at then at[js[k].body] else js[k].pos)
  {
    if |js| == 0 then []
    else
      var j := js[|js| - 1];
      Relocate(js[..|js| - 1], at) + [if j.body in at then j.(pos := at[j.body]) else j]
  }

  /** Moves every body to where the engine put it. Nothing but positions changes. */
  function ApplyPhysics(s: GameState, step: PhysicsStep): (r: GameState)
    ensures r.jerseys == Relocate(s.jerseys, step.jerseyPos)
    ensures r.ball == s.ball.(pos := step.ballPos)
    ensures r.trophy == s.trophy.(pos := step.trophyPos)
    ensures r.mode == s.mode && r.screen == s.screen && r.nextBody == s.nextBody
    ensures r.meter == s.meter && r.trophyHighlight == s.trophyHighlight
  {
    s.(jerseys := Relocate(s.jerseys, step.jerseyPos),
       ball := s.ball.(pos := step.ballPos),
       trophy := s.trophy.(pos := step.trophyPos))
  }

  lemma ApplyPhysicsKeepsValid(s: GameState, step: PhysicsStep)
    requires Valid(s)
    ensures Valid(ApplyPhysics(s, step))
  {
    var r := ApplyPhysics(s, step);
    forall j | j in r.jerseys
      ensures Alive(j) && j.body < r.nextBody
    {
      var k :| 0 <= k < |r.jerseys| && r.jerseys[k] == j;
      assert s.jerseys[k] in s.jerseys;
    }
    forall a, b | 0 <= a < b < |r.jerseys|
      ensures r.jerseys[a].body != r.jerseys[b].body
    {
      assert r.jerseys[a].body == s.jerseys[a].body && r.jerseys[b].body == s.jerseys[b].body;
    }
  }

  /** The gameplay part of a frame: physics and its collisions, the ball check,
      the trophy's movement, then the off-screen sweep. */
  function GameplayFrame(s: GameState, step: PhysicsStep): (r: GameState)
    ensures r.mode == s.mode || r.mode == Victory
    ensures r.mode == Victory <==> s.mode == Victory || exists i :: TrophyWinAt(ApplyPhysics(s, step), step.pairs, i)
    ensures forall j :: j in r.jerseys ==> OnStage(j, s.screen)
    ensures var b := ResolveBatch(ApplyPhysics(s, step), step.pairs);
            && r.jerseys == Survivors(b.jerseys, s.screen)
            && r.meter == b.meter
            && r.ball == CheckBallStatus(b, step.ballVel).ball
            && (r.trophyHighlight <==> b.trophyHighlight || (|b.jerseys| > 0 && |r.jerseys| == 0))
            && (|b.jerseys| > 0 ==> r.trophy == s.trophy.(pos := step.trophyPos))
            && (|b.jerseys| == 0 ==> r.trophy == Trophies.Update(s.trophy.(pos := step.trophyPos), 0, s.screen.width))
    ensures |r.jerseys| <= |s.jerseys|
    ensures r.screen == s.screen && r.nextBody == s.nextBody
  {
    VictoryInBatch(ApplyPhysics(s, step), step.pairs);
    var s1 := ApplyPhysics(s, step);
    var s2 := ResolveBatch(s1, step.pairs);
    var s3 := CheckBallStatus(s2, step.ballVel);
    var s4 := s3.(trophy := Trophies.Update(s3.trophy, |s3.jerseys|, s3.screen.width));
    Sweep(s4)
  }

  lemma GameplayFrameKeepsValid(s: GameState, step: PhysicsStep)
    requires Valid(s)
    ensures Valid(GameplayFrame(s, step))
  {
    var s1 := ApplyPhysics(s, step);
    ApplyPhysicsKeepsValid(s, step);
    ResolveBatchKeepsValid(s1, step.pairs);
  }

  /** The title screen draws its PLAY button from frame 241 on; before that there is no button to hit. */
  const PlayDelay: nat := 240

  /** The PLAY button exists: the title screen has been drawn more than 240 times. */
  predicate PlayShown(s: GameState) {
    s.titleTimer > PlayDelay
  }

  /** One drawn frame: the title screen counts its frames, the victory screen
      draws (and so creates) the PLAY AGAIN button, and only the gameplay screen
      runs the game rules. */
  function Draw(s: GameState, step: PhysicsStep): (r: GameState)
    ensures s.mode == Title ==> r == s.(titleTimer := s.titleTimer + 1)
    ensures s.mode == Victory ==> r == s.(restartDrawn := true)
    ensures s.mode == Gameplay ==> r == GameplayFrame(s, step)
    ensures |r.jerseys| <= |s.jerseys|
  {
    match s.mode
    case Title => s.(titleTimer := s.titleTimer + 1)
    case Gameplay => GameplayFrame(s, step)
    case Victory => s.(restartDrawn := true)
  }

  /** A click: the title screen only listens to PLAY, the victory screen only to
      PLAY AGAIN, and gameplay checks its three buttons in turn. A click on a
      screen whose button has not been drawn yet finds no button and does nothing. */
  function MousePressed(s: GameState, at: Point, rolls: Rolls): (r: GameState)
    requires WellSized(rolls)
    ensures s.mode == Title ==>
              if PlayShown(s) && Inside(at, PlayButton(s.screen))
              then r == ResetGame(s.(mode := Gameplay), rolls) && r.mode == Gameplay && Fresh(r)
              else r == s
    ensures s.mode == Victory ==>
              if s.restartDrawn && Inside(at, RestartButton(s.screen))
              then r == ResetGame(s.(mode := Gameplay), rolls) && r.mode == Gameplay && Fresh(r)
              else r == s
    ensures s.mode == Gameplay ==> r.mode == Gameplay
    ensures s.mode == Gameplay && Inside(at, ResetBallBox) ==> r == ResetBall(s)
    ensures s.mode == Gameplay && Inside(at, ResetGameBox) ==> r == ResetGame(s, rolls) && Fresh(r)
    ensures s.mode == Gameplay && Inside(at, SuperPowerBox) ==> r == s.(meter := SuperPower.Activate(s.meter, s.ball.released))
    ensures s.mode == Gameplay && !Inside(at, ResetBallBox) && !Inside(at, ResetGameBox) && !Inside(at, SuperPowerBox) ==> r == s
  {
    match s.mode
    case Title =>
      if PlayShown(s) && Inside(at, PlayButton(s.screen)) then ResetGame(s.(mode := Gameplay), rolls) else s
    case Victory =>
      if s.restartDrawn && Inside(at, RestartButton(s.screen)) then ResetGame(s.(mode := Gameplay), rolls) else s
    case Gameplay =>
      GameplayButtonsDisjoint(at);
      var s1 := if Inside(at, ResetBallBox) then ResetBall(s) else s;
      var s2 := if Inside(at, ResetGameBox) then ResetGame(s1, rolls) else s1;
      if Inside(at, SuperPowerBox) && SuperPower.CanActivate(s2.meter, s2.ball.released) then
        s2.(meter := SuperPower.Activate(s2.meter, s2.ball.released))
      else
        s2
  }

  /** A key: space puts the ball back during gameplay; R or r starts a new round
      from whatever screen is showing. */
  function KeyPressed(s: GameState, key: char, rolls: Rolls): (r: GameState)
    requires WellSized(rolls)
    ensures key == 'r' || key == 'R' ==> r == ResetGame(s.(mode := Gameplay), rolls) && r.mode == Gameplay && Fresh(r)
    ensures key == ' ' ==> r == (if s.mode == Gameplay then ResetBall(s) else s)
    ensures key != ' ' && key != 'r' && key != 'R' ==> r == s
  {
    var s1 := if key == ' ' && s.mode == Gameplay then ResetBall(s) else s;
    if key == 'r' || key == 'R' then ResetGame(s1.(mode := Gameplay), rolls) else s1
  }

  /** A drag takes hold of the ball: gameplay, the ball not yet launched, and the cursor within reach of it. */
  predicate Grabs(s: GameState, to: Point) {
    s.mode == Gameplay && !s.ball.released && DistSq(to, s.ball.pos) < InteractRadiusSq
  }

  /** Cursor drag: during gameplay, a ball still in the slingshot and within
      reach of the cursor is grabbed and follows it, held on the stretch circle
      (`rim`, the host's projection of the cursor onto it) once beyond the maximum stretch. */
  function MouseDragged(s: GameState, to: Point, rim: Point): (r: GameState)
    ensures !Grabs(s, to) ==> r == s
    ensures Grabs(s, to) ==>
              && r.ball.beingDragged
              && r.ball.pos == (if DistSq(to, Anchor(s.screen)) <= MaxStretchSq then to else rim)
              && r == s.(ball := s.ball.(beingDragged := true, pos := r.ball.pos))
  {
    if s.mode != Gameplay then s
    else if !s.ball.released && DistSq(to, s.ball.pos) < InteractRadiusSq then
      var pos := if DistSq(to, Anchor(s.screen)) > MaxStretchSq then rim else to;
      s.(ball := s.ball.(beingDragged := true, pos := pos))
    else s
  }

  /** Cursor release: during gameplay, a grabbed ball is launched, and the
      meter is emptied if (and only if) the super power was active. */
  function MouseReleased(s: GameState): (r: GameState)
    ensures s.mode != Gameplay || !s.ball.beingDragged ==> r == s
    ensures s.mode == Gameplay && s.ball.beingDragged ==>
              && r.ball == s.ball.(beingDragged := false, released := true, isStatic := false)
              && r.meter == SuperPower.OnLaunch(s.meter)
              && r == s.(ball := r.ball, meter := r.meter)
  {
    if s.mode != Gameplay then s
    else if s.ball.beingDragged then
      s.(ball := s.ball.(beingDragged := false, released := true, isStatic := false),
         meter := SuperPower.OnLaunch(s.meter))
    else s
  }

  /** Every input the game reacts to. */
  datatype Event =
    | Click(at: Point, clickRolls: Rolls)
    | KeyPress(key: char, keyRolls: Rolls)
    | DragTo(to: Point, rim: Point)
    | Release
    | Frame(step: PhysicsStep)

  /** Random draws come with the inputs that may start a round. */
  predicate WellFormed(e: Event) {
    match e
    case Click(_, rolls) => WellSized(rolls)
    case KeyPress(_, rolls) => WellSized(rolls)
    case _ => true
  }

  function Step(s: GameState, e: Event): GameState
    requires WellFormed(e)
  {
    match e
    case Click(at, rolls) => MousePressed(s, at, rolls)
    case KeyPress(key, rolls) => KeyPressed(s, key, rolls)
    case DragTo(to, rim) => MouseDragged(s, to, rim)
    case Release => MouseReleased(s)
    case Frame(step) => Draw(s, step)
  }

  /** The allowed mode moves: the title screen is never re-entered, victory
      comes only from a gameplay frame, and a round starts (fresh) only from a
      drawn PLAY or PLAY AGAIN button or the R key. */
  lemma ModeMoves(s: GameState, e: Event)
    requires WellFormed(e)
    ensures Step(s, e).mode == Title ==> s.mode == Title
    ensures Step(s, e).mode == Victory ==> s.mode == Victory || (s.mode == Gameplay && e.Frame?)
    ensures s.mode == Title && Step(s, e).mode == Gameplay ==>
              && Fresh(Step(s, e))
              && ((e.Click? && PlayShown(s) && Inside(e.at, PlayButton(s.screen))) || (e.KeyPress? && (e.key == 'r' || e.key == 'R')))
    ensures s.mode == Victory && Step(s, e).mode == Gameplay ==>
              && Fresh(Step(s, e))
              && ((e.Click? && s.restartDrawn && Inside(e.at, RestartButton(s.screen))) || (e.KeyPress? && (e.key == 'r' || e.key == 'R')))
  {
  }

  /** Outside gameplay, drags, releases and the space bar change nothing, and a
      frame only advances the title timer or draws the PLAY AGAIN button. */
  lemma GatedOutsideGameplay(s: GameState, e: Event)
    requires s.mode != Gameplay && WellFormed(e)
    requires e.DragTo? || e.Release? || e.Frame? || (e.KeyPress? && e.key == ' ')
    ensures !e.Frame? ==> Step(s, e) == s
    ensures e.Frame? ==> Step(s, e) == s.(titleTimer := Step(s, e).titleTimer, restartDrawn := Step(s, e).restartDrawn)
    ensures s.mode == Title ==> Step(s, e).titleTimer >= s.titleTimer && Step(s, e).restartDrawn == s.restartDrawn
    ensures s.mode == Victory ==> Step(s, e).titleTimer == s.titleTimer
  {
  }

  function Run(s: GameState, es: seq<Event>): GameState
    requires forall e :: e in es ==> WellFormed(e)
  {
    if |es| == 0 then s else Step(Run(s, es[..|es| - 1]), es[|es| - 1])
  }

  lemma StepKeepsValid(s: GameState, e: Event)
    requires Valid(s) && WellFormed(e)
    ensures Valid(Step(s, e))
  {
    if e.Frame? && s.mode == Gameplay {
      GameplayFrameKeepsValid(s, e.step);
    }
  }

  /** The super power is never live on a ball in flight: activation needs a
      ball still in the slingshot, and the launch switches it off. */
  predicate PowerHeld(s: GameState) {
    s.ball.released ==> !s.meter.active
  }

  lemma StepKeepsPowerHeld(s: GameState, e: Event)
    requires PowerHeld(s) && WellFormed(e)
    ensures PowerHeld(Step(s, e))
  {
    if e.Frame? && s.mode == Gameplay {
      var s1 := ApplyPhysics(s, e.step);
      var s2 := ResolveBatch(s1, e.step.pairs);
      assert PowerHeld(s2);
    }
  }

  /** So a ball in flight never deals the ×10 damage: its hits cost 1 or 2. */
  lemma LaunchedBallHitsUnpowered(s: GameState, impact: real)
    requires PowerHeld(s) && s.ball.released
    ensures HitDamage(impact, s.meter.active) == (if impact > 10.0 then 2 else 1)
  {
  }

  /** Every state reachable from the start keeps the invariant: jerseys in play
      are alive with distinct bodies, the meter's charge never passes the
      threshold, the trophy's direction and timer stay in range, and the ×10
      damage can only be armed on a ball that has not been launched. */
  lemma {:induction false} RunKeepsValid(sc: Screen, rolls: Rolls, es: seq<Event>)
    requires WellSized(rolls) && forall e :: e in es ==> WellFormed(e)
    ensures Valid(Run(Setup(sc, rolls), es))
    ensures 0 <= Run(Setup(sc, rolls), es).meter.charge <= SuperPower.Threshold
    ensures PowerHeld(Run(Setup(sc, rolls), es))
  {
    if |es| > 0 {
      RunKeepsValid(sc, rolls, es[..|es| - 1]);
      StepKeepsValid(Run(Setup(sc, rolls), es[..|es| - 1]), es[|es| - 1]);
      StepKeepsPowerHeld(Run(Setup(sc, rolls), es[..|es| - 1]), es[|es| - 1]);
    }
  }

  /** Title frames alone keep the title screen up and are counted one by one. */
  lemma {:induction false} TitleFramesCounted(sc: Screen, rolls: Rolls, es: seq<Event>)
    requires WellSized(rolls) && forall e :: e in es ==> e.Frame?
    ensures Run(Setup(sc, rolls), es).mode == Title
    ensures Run(Setup(sc, rolls), es) == Setup(sc, rolls).(titleTimer := |es|)
  {
    if |es| > 0 {
      var n := |es| - 1;
      assert forall e :: e in es[..n] ==> e in es;
      TitleFramesCounted(sc, rolls, es[..n]);
      var before := Run(Setup(sc, rolls), es[..n]);
      assert es[n] in es;
      assert Run(Setup(sc, rolls), es) == Draw(before, es[n].step);
    }
  }

  /** From the start, the PLAY button appears on the 241st title frame; a click
      before that does nothing, wherever it lands. */
  lemma PlayAppearsOnFrame241(sc: Screen, rolls: Rolls, es: seq<Event>, at: Point, clickRolls: Rolls)
    requires WellSized(rolls) && WellSized(clickRolls) && forall e :: e in es ==> e.Frame?
    ensures PlayShown(Run(Setup(sc, rolls), es)) <==> |es| > PlayDelay
    ensures |es| <= PlayDelay ==> MousePressed(Run(Setup(sc, rolls), es), at, clickRolls) == Run(Setup(sc, rolls), es)
  {
    TitleFramesCounted(sc, rolls, es);
  }
}

=== FILE: geometry.dfy ===
/** Points, the canvas and the on-screen button boxes of the game.
    Positions are reals; the canvas has integer pixel dimensions. */
module Geometry {

  datatype Point = Point(x: real, y: real)

  /** The canvas size and whether the device is touch-driven (which changes button sizes). */
  datatype Screen = Screen(width: int, height: int, mobile: bool)

  /** An axis-aligned box given by its four edges (y grows downwards). */
  datatype Box = Box(left: real, right: real, top: real, bottom: real)

  /** Button hit test: every bound is strict, so a click on an edge misses. */
  predicate Inside(p: Point, b: Box) {
    b.left < p.x < b.right && b.top < p.y < b.bottom
  }

  /** The box of the given size centred on (cx, cy). */
  function Centered(cx: real, cy: real, w: real, h: real): (b: Box)
    ensures b.right - b.left == w && b.bottom - b.top == h
    ensures b.left + b.right == 2.0 * cx && b.top + b.bottom == 2.0 * cy
  {
    Box(cx - w / 2.0, cx + w / 2.0, cy - h / 2.0, cy + h / 2.0)
  }

  /** Squared Euclidean distance; comparing it with a squared radius decides `dist(p, q) < r`. */
  function DistSq(p: Point, q: Point): (d: real)
    ensures d >= 0.0
    ensures p == q ==> d == 0.0
  {
    var dx := p.x - q.x;
    var dy := p.y - q.y;
    SquareNonNegative(dx);
    SquareNonNegative(dy);
    dx * dx + dy * dy
  }

  lemma SquareNonNegative(a: real)
    ensures a * a >= 0.0
  {
    if a < 0.0 {
      assert a * a == (-a) * (-a);
    }
  }

  /** The title screen's PLAY button: centred horizontally at 70% of the height. */
  function PlayButton(sc: Screen): (b: Box)
    ensures b.right - b.left == (if sc.mobile then 300.0 else 200.0)
    ensures b.bottom - b.top == (if sc.mobile then 100.0 else 80.0)
    ensures b.left + b.right == sc.width as real
    ensures b.top + b.bottom == 2.0 * (sc.height as real * 0.7)
  {
    Centered(sc.width as real / 2.0, sc.height as real * 0.7,
             if sc.mobile then 300.0 else 200.0, if sc.mobile then 100.0 else 80.0)
  }

  /** The victory screen's PLAY AGAIN button: centred horizontally at 75% of the height. */
  function RestartButton(sc: Screen): (b: Box)
    ensures b.right - b.left == (if sc.mobile then 300.0 else 250.0)
    ensures b.bottom - b.top == (if sc.mobile then 100.0 else 80.0)
    ensures b.left + b.right == sc.width as real
    ensures b.top + b.bottom == 2.0 * (sc.height as real * 0.75)
  {
    Centered(sc.width as real / 2.0, sc.height as real * 0.75,
             if sc.mobile then 300.0 else 250.0, if sc.mobile then 100.0 else 80.0)
  }

  /** The three gameplay buttons share the column 20 < x < 140. */
  const ResetBallBox: Box := Box(20.0, 140.0, 50.0, 80.0)
  const ResetGameBox: Box := Box(20.0, 140.0, 90.0, 120.0)
  const SuperPowerBox: Box := Box(20.0, 140.0, 160.0, 190.0)

  /** A single click hits at most one gameplay button, so the order in which
      the click handler tests them does not matter. */
  lemma GameplayButtonsDisjoint(p: Point)
    ensures !(Inside(p, ResetBallBox) && Inside(p, ResetGameBox))
    ensures !(Inside(p, ResetBallBox) && Inside(p, SuperPowerBox))
    ensures !(Inside(p, ResetGameBox) && Inside(p, SuperPowerBox))
  {
  }
}

=== FILE: jerseys.dfy ===
/** Jerseys: the destructible targets. A jersey's colour fixes its starting
    health; damage is subtracted without clamping. */
module Jerseys {
  import opened Geometry

  /** Identity of a physics body; the engine hands out a fresh one per body created. */
  type BodyId = nat

  datatype Kind = Red | Blue | Black

  datatype Jersey = Jersey(body: BodyId, kind: Kind, pos: Point, health: int, maxHealth: int)

  /** Starting (and maximum) health of each colour. */
  function MaxHealthOf(k: Kind): (h: int)
    ensures h == 2 || h == 4 || h == 6
  {
    match k
    case Red => 6
    case Blue => 4
    case Black => 2
  }

  /** Heavier colours take strictly more hits, and no two colours share a health. */
  lemma HealthOrdersKinds(a: Kind, b: Kind)
    ensures MaxHealthOf(a) == MaxHealthOf(b) <==> a == b
    ensures MaxHealthOf(Black) < MaxHealthOf(Blue) < MaxHealthOf(Red)
  {
  }

  /** Undamaged: health equals the colour's maximum. */
  predicate Intact(j: Jersey) {
    j.maxHealth == MaxHealthOf(j.kind) && j.health == j.maxHealth
  }

  /** What holds of every jersey still in play: damaged, perhaps, but alive. */
  predicate Alive(j: Jersey) {
    j.maxHealth == MaxHealthOf(j.kind) && 0 < j.health <= j.maxHealth
  }

  /** A jersey as built by the constructor. */
  function NewJersey(body: BodyId, kind: Kind, pos: Point): (j: Jersey)
    ensures Intact(j) && Alive(j)
    ensures j.body == body && j.kind == kind && j.pos == pos
  {
    Jersey(body, kind, pos, MaxHealthOf(kind), MaxHealthOf(kind))
  }

  /** Subtracts `amount` from the health and reports whether the jersey is destroyed. */
  function Damage(j: Jersey, amount: int): (r: (Jersey, bool))
    ensures r.0.body == j.body && r.0.kind == j.kind && r.0.pos == j.pos && r.0.maxHealth == j.maxHealth
    ensures j.health - r.0.health == amount
    ensures r.1 <==> r.0.health <= 0
  {
    var h := j.health - amount;
    (j.(health := h), h <= 0)
  }

  /** A hit that does not destroy an alive jersey leaves it alive. */
  lemma SurvivingHitKeepsAlive(j: Jersey, amount: int)
    requires Alive(j) && amount > 0
    requires !Damage(j, amount).1
    ensures Alive(Damage(j, amount).0)
    ensures Damage(j, amount).0.health < j.health
  {
  }

  /** Health is not clamped: a black jersey hit for 20 ends at -18. */
  lemma HealthGoesNegative(body: BodyId, pos: Point)
    ensures Damage(NewJersey(body, Black, pos), 20) == (NewJersey(body, Black, pos).(health := -18), true)
  {
  }

  /** Once destroyed, any further positive hit reports destruction again. */
  lemma DestroyedStaysDestroyed(j: Jersey, amount: int)
    requires j.health <= 0 && amount > 0
    ensures Damage(j, amount).1
    ensures Damage(j, amount).0.health < j.health
  {
  }

  function Sum(ds: seq<int>): int {
    if |ds| == 0 then 0 else Sum(ds[..|ds| - 1]) + ds[|ds| - 1]
  }

  /** The jersey after a sequence of hits, in order. */
  function HitAll(j: Jersey, ds: seq<int>): Jersey {
    if |ds| == 0 then j else Damage(HitAll(j, ds[..|ds| - 1]), ds[|ds| - 1]).0
  }

  /** Hits accumulate exactly: after any sequence of hits the health has dropped
      by their total, and nothing but the health has changed. */
  lemma {:induction false} HitsAccumulate(j: Jersey, ds: seq<int>)
    ensures HitAll(j, ds) == j.(health := j.health - Sum(ds))
  {
    if |ds| > 0 {
      HitsAccumulate(j, ds[..|ds| - 1]);
    }
  }

  /** A red jersey hit hard twice (2 + 2) has 2 health left and survives; a third hard hit destroys it. */
  lemma RedTakesThreeHardHits(body: BodyId, pos: Point)
    ensures HitAll(NewJersey(body, Red, pos), [2, 2]).health == 2
    ensures !Damage(NewJersey(body, Red, pos), 2).1
    ensures !Damage(HitAll(NewJersey(body, Red, pos), [2]), 2).1
    ensures Damage(HitAll(NewJersey(body, Red, pos), [2, 2]), 2).1
  {
    var j := NewJersey(body, Red, pos);
    HitsAccumulate(j, [2]);
    HitsAccumulate(j, [2, 2]);
    assert Sum([2, 2]) == 4 by {
      assert [2, 2][..1] == [2];
      assert [2][..0] == [];
    }
  }
}

=== FILE: lifecycle.dfy ===
/** Per-frame housekeeping: removing jerseys that fell off the stage, and
    putting the ball back when it stops or leaves the screen. */
module Lifecycle {
  import opened Geometry
  import opened Jerseys
  import opened Session

  /** The sweep's margin: 300 beyond the canvas plus another 100. */
  const OffStageMargin: real := 400.0

  /** A jersey stays while it is within 400 of the canvas sideways and not more
      than 400 below it; there is no upper bound. */
  predicate OnStage(j: Jersey, sc: Screen) {
    -OffStageMargin <= j.pos.x <= sc.width as real + OffStageMargin && j.pos.y <= sc.height as real + OffStageMargin
  }

  /** The jerseys that stay, in their original order. */
  function Survivors(js: seq<Jersey>, sc: Screen): (r: seq<Jersey>)
    ensures |r| <= |js|
    ensures forall j :: j in r <==> j in js && OnStage(j, sc)
  {
    if |js| == 0 then []
    else (if OnStage(js[0], sc) then [js[0]] else []) + Survivors(js[1..], sc)
  }

  /** Filtering a concatenation filters each part: the order of survivors is the original order. */
  lemma {:induction false} SurvivorsDistributes(a: seq<Jersey>, b: seq<Jersey>, sc: Screen)
    ensures Survivors(a + b, sc) == Survivors(a, sc) + Survivors(b, sc)
  {
    if |a| > 0 {
      assert (a + b)[1..] == a[1..] + b;
      SurvivorsDistributes(a[1..], b, sc);
    } else {
      assert a + b == b;
    }
  }

  /** A second sweep of the same positions removes nothing more. */
  lemma {:induction false} SurvivorsIdempotent(js: seq<Jersey>, sc: Screen)
    ensures Survivors(Survivors(js, sc), sc) == Survivors(js, sc)
  {
    if |js| > 0 {
      SurvivorsIdempotent(js[1..], sc);
      if OnStage(js[0], sc) {
        var r := Survivors(js, sc);
        assert r == [js[0]] + Survivors(js[1..], sc);
        assert r[1..] == Survivors(js[1..], sc);
      } else {
        assert Survivors(js, sc) == Survivors(js[1..], sc);
      }
    }
  }

  /** The off-screen sweep: drops every off-stage jersey and raises the trophy
      highlight when a removal leaves the list empty. */
  function Sweep(s: GameState): (r: GameState)
    ensures forall j :: j in r.jerseys <==> j in s.jerseys && OnStage(j, s.screen)
    ensures r.trophyHighlight <==> s.trophyHighlight || (|s.jerseys| > 0 && |r.jerseys| == 0)
    ensures r == s.(jerseys := r.jerseys, trophyHighlight := r.trophyHighlight)
    ensures Valid(s) ==> Valid(r)
  {
    var kept := Survivors(s.jerseys, s.screen);
    SurvivorsKeepsDistinct(s.jerseys, s.screen);
    s.(jerseys := kept, trophyHighlight := s.trophyHighlight || (|s.jerseys| > 0 && |kept| == 0))
  }

  lemma {:induction false} SurvivorsKeepsDistinct(js: seq<Jersey>, sc: Screen)
    ensures DistinctBodies(js) ==> DistinctBodies(Survivors(js, sc))
  {
    if |js| > 0 && DistinctBodies(js) {
      SurvivorsKeepsDistinct(js[1..], sc);
      var rest := Survivors(js[1..], sc);
      forall j | j in rest
        ensures j.body != js[0].body
      {
        var k :| 1 <= k < |js| && js[k] == j;
      }
    }
  }

  /** The sweep as the game writes it: walk the list from the back, splicing out
      each off-stage jersey and noting when a splice leaves the list empty. */
  method SweepFromBack(js: seq<Jersey>, sc: Screen) returns (kept: seq<Jersey>, emptied: bool)
    ensures kept == Survivors(js, sc)
    ensures emptied <==> |js| > 0 && |kept| == 0
  {
    kept := js;
    emptied := false;
    var i := |js|;
    while i > 0
      invariant 0 <= i <= |js|
      invariant kept == js[..i] + Survivors(js[i..], sc)
      invariant emptied ==> i == 0 && |kept| == 0 && |js| > 0
      invariant i == 0 && |js| > 0 && |kept| == 0 ==> emptied
    {
      i := i - 1;
      assert js[i..][1..] == js[i + 1..];
      assert js[..i + 1] == js[..i] + [js[i]];
      if !OnStage(kept[i], sc) {
        kept := kept[..i] + kept[i + 1..];
        if |kept| == 0 {
          emptied := true;
        }
      }
    }
    assert js[0..] == js;
  }

  /** The ball counts as stopped when both velocity components are below 0.01 in size. */
  predicate Stopped(vel: Point) {
    -0.01 < vel.x < 0.01 && -0.01 < vel.y < 0.01
  }

  /** Off screen: more than 50 past the left, right or bottom edge. */
  predicate OffScreen(p: Point, sc: Screen) {
    p.x > sc.width as real + 50.0 || p.x < -50.0 || p.y > sc.height as real + 50.0
  }

  /** Once released, the ball is put back when it has stopped, and then (looking
      at whatever ball is current) when it is off screen. */
  function CheckBallStatus(s: GameState, vel: Point): (r: GameState)
    ensures r == (if s.ball.released && (Stopped(vel) || OffScreen(s.ball.pos, s.screen)) then ResetBall(s) else s)
  {
    if s.ball.released then
      var s1 := if Stopped(vel) then ResetBall(s) else s;
      if OffScreen(s1.ball.pos, s1.screen) then ResetBall(s1) else s1
    else
      s
  }
}

=== FILE: session.dfy ===
/** The whole game state as one value, with the ball and round resets and the
    jersey layout built at the start of every round. */
module Session {
  import opened Geometry
  import opened Jerseys
  import Trophies
  import SuperPower

  datatype Mode = Title | Gameplay | Victory

  /** The ball's position and its three flags; `isStatic` is the physics body's static switch. */
  datatype Ball = Ball(pos: Point, isStatic: bool, released: bool, beingDragged: bool, hasCollided: bool)

  /** Everything the game rules read and write. `jerseys` is the live list, in
      creation order; `nextBody` is the next body id the physics engine will hand out.
      `titleTimer` counts title-screen frames, and `restartDrawn` records that the
      victory screen has been drawn at least once: the PLAY and PLAY AGAIN buttons
      exist only once they have been drawn. */
  datatype GameState = GameState(
    mode: Mode,
    screen: Screen,
    ball: Ball,
    jerseys: seq<Jersey>,
    nextBody: nat,
    trophy: Trophies.Trophy,
    meter: SuperPower.Meter,
    trophyHighlight: bool,
    titleTimer: nat,
    restartDrawn: bool)

  /** No two jerseys in the list share a body. */
  predicate DistinctBodies(js: seq<Jersey>) {
    forall i, k :: 0 <= i < k < |js| ==> js[i].body != js[k].body
  }

  /** The invariant every reachable state keeps. */
  predicate Valid(s: GameState) {
    && (forall j :: j in s.jerseys ==> Alive(j) && j.body < s.nextBody)
    && DistinctBodies(s.jerseys)
    && SuperPower.Valid(s.meter)
    && Trophies.Valid(s.trophy)
  }

  /** The slingshot anchor, where every new ball is placed. */
  function Anchor(sc: Screen): Point {
    Point(150.0, (sc.height - 150) as real)
  }

  /** A ball waiting in the slingshot: static at the anchor, no flag set. */
  predicate Ready(b: Ball, sc: Screen) {
    b.pos == Anchor(sc) && b.isStatic && !b.released && !b.beingDragged && !b.hasCollided
  }

  /** Replaces the ball by a new static one at the anchor. */
  function ResetBall(s: GameState): (r: GameState)
    ensures Ready(r.ball, r.screen)
    ensures r == s.(ball := r.ball)
  {
    s.(ball := Ball(Anchor(s.screen), true, false, false, false))
  }

  /** The result of a ball reset depends on nothing about the old ball, and a
      second reset changes nothing. */
  lemma ResetBallForgetsOldBall(s: GameState, b: Ball)
    ensures ResetBall(s.(ball := b)) == ResetBall(s)
    ensures ResetBall(ResetBall(s)) == ResetBall(s)
  {
  }

  // ---------------------------------------------------------------------------
  // Jersey layout. The random draws (colour, horizontal jitter, single positions)
  // are inputs.

  /** One random draw for a pile jersey: horizontal offset and colour. */
  datatype PileRoll = PileRoll(offsetX: real, kind: Kind)

  /** One random draw for a single jersey: position and colour. */
  datatype SingleRoll = SingleRoll(x: real, y: real, kind: Kind)

  /** All random draws of one layout: three piles, then the singles. */
  datatype Rolls = Rolls(first: seq<PileRoll>, second: seq<PileRoll>, third: seq<PileRoll>, singles: seq<SingleRoll>)

  /** Piles of 3, 4 and 3 jerseys, and 3 singles. */
  predicate WellSized(rolls: Rolls) {
    |rolls.first| == 3 && |rolls.second| == 4 && |rolls.third| == 3 && |rolls.singles| == 3
  }

  const PileSpacing: real := 80.0

  /** A stack of `height` jerseys based at (x, baseY), each 80 above the previous. */
  function JerseyPile(x: real, baseY: real, height: nat, rolls: seq<PileRoll>, firstBody: BodyId): (r: seq<Jersey>)
    requires |rolls| == height
    ensures |r| == height
    ensures forall i :: 0 <= i < height ==>
              r[i] == NewJersey(firstBody + i, rolls[i].kind, Point(x + rolls[i].offsetX, baseY - PileSpacing * i as real))
  {
    if height == 0 then []
    else JerseyPile(x, baseY, height - 1, rolls[..height - 1], firstBody) +
         [NewJersey(firstBody + height - 1, rolls[height - 1].kind,
                    Point(x + rolls[height - 1].offsetX, baseY - PileSpacing * (height - 1) as real))]
  }

  /** The scattered single jerseys, at their drawn positions. */
  function Singles(rolls: seq<SingleRoll>, firstBody: BodyId): (r: seq<Jersey>)
    ensures |r| == |rolls|
    ensures forall i :: 0 <= i < |rolls| ==>
              r[i] == NewJersey(firstBody + i, rolls[i].kind, Point(rolls[i].x, rolls[i].y))
  {
    if |rolls| == 0 then []
    else Singles(rolls[..|rolls| - 1], firstBody) +
         [NewJersey(firstBody + |rolls| - 1, rolls[|rolls| - 1].kind, Point(rolls[|rolls| - 1].x, rolls[|rolls| - 1].y))]
  }

  /** The round's jerseys: piles at 40%, 60% and 75% of the width standing on
      height - 90, then three singles. The requested `count` plays no part. */
  function RandomJerseys(count: int, sc: Screen, rolls: Rolls, firstBody: BodyId): (r: seq<Jersey>)
    requires WellSized(rolls)
    ensures |r| == 13
    ensures forall i :: 0 <= i < 13 ==> Intact(r[i]) && r[i].body == firstBody + i
    ensures forall i :: 0 <= i < 3 ==>
              && r[i].kind == rolls.first[i].kind
              && r[i].pos == Point(sc.width as real * 0.4 + rolls.first[i].offsetX, (sc.height - 90) as real - PileSpacing * i as real)
    ensures forall i :: 0 <= i < 4 ==>
              && r[3 + i].kind == rolls.second[i].kind
              && r[3 + i].pos == Point(sc.width as real * 0.6 + rolls.second[i].offsetX, (sc.height - 90) as real - PileSpacing * i as real)
    ensures forall i :: 0 <= i < 3 ==>
              && r[7 + i].kind == rolls.third[i].kind
              && r[7 + i].pos == Point(sc.width as real * 0.75 + rolls.third[i].offsetX, (sc.height - 90) as real - PileSpacing * i as real)
    ensures forall i :: 0 <= i < 3 ==> r[10 + i].kind == rolls.singles[i].kind && r[10 + i].pos == Point(rolls.singles[i].x, rolls.singles[i].y)
  {
    var baseY := (sc.height - 90) as real;
    JerseyPile(sc.width as real * 0.4, baseY, 3, rolls.first, firstBody) +
    JerseyPile(sc.width as real * 0.6, baseY, 4, rolls.second, firstBody + 3) +
    JerseyPile(sc.width as real * 0.75, baseY, 3, rolls.third, firstBody + 7) +
    Singles(rolls.singles, firstBody + 10)
  }

  /** A new round: ball, jerseys, trophy, highlight and meter all start over; the mode is left to the caller. */
  function ResetGame(s: GameState, rolls: Rolls): (r: GameState)
    requires WellSized(rolls)
    ensures Fresh(r)
    ensures r.mode == s.mode && r.screen == s.screen
    ensures r.jerseys == RandomJerseys(5, s.screen, rolls, s.nextBody) && r.nextBody == s.nextBody + 13
    ensures r.titleTimer == s.titleTimer && r.restartDrawn == s.restartDrawn
    ensures forall j :: j in r.jerseys ==> s.nextBody <= j.body < r.nextBody
  {
    var s1 := ResetBall(s);
    var js := RandomJerseys(5, s.screen, rolls, s1.nextBody);
    s1.(jerseys := js,
        nextBody := s1.nextBody + 13,
        trophy := Trophies.Reset(s1.trophy, s.screen.width),
        trophyHighlight := false,
        meter := SuperPower.Empty)
  }

  /** What a freshly reset round looks like, and it is valid. */
  predicate Fresh(r: GameState) {
    && Valid(r)
    && Ready(r.ball, r.screen)
    && |r.jerseys| == 13
    && (forall j :: j in r.jerseys ==> Intact(j))
    && r.trophy.direction == 1 && r.trophy.moveTime == 0
    && r.trophy.pos == Point((r.screen.width - 200) as real, 200.0)
    && !r.trophyHighlight
    && r.meter == SuperPower.Empty
  }

  /** Two rounds in a row get the same shape: 13 bodies, each bodily distinct from every earlier one. */
  lemma ResetTwiceSameShape(s: GameState, a: Rolls, b: Rolls)
    requires WellSized(a) && WellSized(b)
    ensures |ResetGame(ResetGame(s, a), b).jerseys| == |ResetGame(s, a).jerseys| == 13
    ensures forall j, k :: j in ResetGame(s, a).jerseys && k in ResetGame(ResetGame(s, a), b).jerseys ==> j.body != k.body
  {
  }

  /** The state the program starts in: the title screen over a first layout,
      with the ball placed 200 above the bottom. */
  function Setup(sc: Screen, rolls: Rolls): (r: GameState)
    requires WellSized(rolls)
    ensures Valid(r) && r.mode == Title && r.screen == sc
    ensures r.jerseys == RandomJerseys(5, sc, rolls, 0) && r.nextBody == 13
    ensures r.ball.pos == Point(150.0, (sc.height - 200) as real) && r.ball.isStatic
    ensures !r.ball.released && !r.ball.beingDragged && !r.ball.hasCollided
    ensures r.trophy.pos == Point((sc.width - 200) as real, 200.0)
    ensures r.trophy.direction == 1 && r.trophy.moveTime == 0
    ensures r.meter == SuperPower.Empty
    ensures !r.trophyHighlight
    ensures r.titleTimer == 0 && !r.restartDrawn
  {
    var t := Trophies.Trophy(Point((sc.width - 200) as real, 200.0), 1, 0);
    GameState(Title, sc, Ball(Point(150.0, (sc.height - 200) as real), true, false, false, false),
              RandomJerseys(5, sc, rolls, 0), 13, t, SuperPower.Empty, false, 0, false)
  }
}

=== FILE: superpower.dfy ===
/** The super-power meter: non-lethal hits count up, the charge follows the
    count up to a threshold, activation is guarded, and the meter is emptied
    only when an activated shot is launched. */
module SuperPower {

  const Threshold: int := 10

  /** `counter` counts non-lethal hits, `charge` is what the bar shows. */
  datatype Meter = Meter(counter: int, charge: int, active: bool)

  const Empty: Meter := Meter(0, 0, false)

  function Min(a: int, b: int): int {
    if a <= b then a else b
  }

  /** The meter's invariant: while idle the charge is the count saturated at the
      threshold; once active the charge is frozen at the threshold. */
  predicate Valid(m: Meter) {
    && 0 <= m.counter
    && (if m.active then m.charge == Threshold <= m.counter else m.charge == Min(m.counter, Threshold))
  }

  /** Recomputes the charge from the counter; does nothing while active. */
  function Recharge(m: Meter): (r: Meter)
    ensures r.counter == m.counter && r.active == m.active
    ensures !m.active ==> r.charge == Min(m.counter, Threshold)
    ensures m.active ==> r == m
  {
    if m.counter >= Threshold && !m.active then
      m.(charge := Threshold)
    else if !m.active then
      m.(charge := m.counter)
    else
      m
  }

  /** A non-lethal hit: one more on the counter, then recharge. */
  function RecordHit(m: Meter): (r: Meter)
    ensures r.counter == m.counter + 1 && r.active == m.active
    ensures Valid(m) ==> Valid(r)
    ensures Valid(m) ==> r.charge <= Threshold
  {
    Recharge(m.(counter := m.counter + 1))
  }

  /** The guard shared by the activation button and the activation itself. */
  predicate CanActivate(m: Meter, ballReleased: bool) {
    m.charge >= Threshold && !m.active && !ballReleased
  }

  /** Activation switches the multiplier on; the charge is NOT consumed here. */
  function Activate(m: Meter, ballReleased: bool): (r: Meter)
    ensures r.counter == m.counter && r.charge == m.charge
    ensures r.active <==> (m.active || (m.charge >= Threshold && !ballReleased))
    ensures Valid(m) ==> Valid(r)
  {
    if CanActivate(m, ballReleased) then m.(active := true) else m
  }

  /** Bookkeeping at launch: an active meter is emptied, an idle one carries its charge over. */
  function OnLaunch(m: Meter): (r: Meter)
    ensures !r.active
    ensures m.active ==> r.counter == 0 && r.charge == 0
    ensures !m.active ==> r == m
    ensures Valid(m) ==> Valid(r)
  {
    if m.active then Empty else m
  }

  /** Everything that can happen to the meter. */
  datatype MeterEvent = NonLethalHit | Press(ballReleased: bool) | Launch | Clear

  function Apply(m: Meter, e: MeterEvent): Meter {
    match e
    case NonLethalHit => RecordHit(m)
    case Press(released) => Activate(m, released)
    case Launch => OnLaunch(m)
    case Clear => Empty
  }

  function Run(m: Meter, es: seq<MeterEvent>): Meter {
    if |es| == 0 then m else Apply(Run(m, es[..|es| - 1]), es[|es| - 1])
  }

  /** Whatever happens, the meter stays valid, so the charge never passes the threshold
      and an active meter always holds a full charge. */
  lemma {:induction false} RunKeepsValid(m: Meter, es: seq<MeterEvent>)
    requires Valid(m)
    ensures Valid(Run(m, es))
    ensures 0 <= Run(m, es).charge <= Threshold
    ensures Run(m, es).active ==> Run(m, es).charge == Threshold
  {
    if |es| > 0 {
      RunKeepsValid(m, es[..|es| - 1]);
    }
  }

  /** One shot per charge: a full idle meter activates, and the launch that follows empties it. */
  lemma ActivateThenLaunch(m: Meter)
    requires Valid(m) && !m.active && m.counter >= Threshold
    ensures Activate(m, false).active
    ensures OnLaunch(Activate(m, false)) == Empty
  {
  }

  /** Activation is rejected, changing nothing, without a full charge, when already active,
      or once the ball is in flight. */
  lemma ActivateRejected(m: Meter, ballReleased: bool)
    requires m.charge < Threshold || m.active || ballReleased
    ensures Activate(m, ballReleased) == m
  {
  }
}

=== FILE: trophies.dfy ===
/** The trophy: frozen while jerseys remain, then sliding left and right inside
    a 100-pixel band near the right edge, turning round every 181 frames. */
module Trophies {
  import opened Geometry

  const MoveSpeed: int := 1
  /** Frames between direction changes (the timer must EXCEED this to flip). */
  const TimeToChangeDirection: int := 180

  /** `direction` is 1 (right) or -1 (left); `moveTime` counts frames since the last flip. */
  datatype Trophy = Trophy(pos: Point, direction: int, moveTime: int)

  function LeftLimit(width: int): real { (width - 250) as real }
  function RightLimit(width: int): real { (width - 150) as real }

  predicate InBand(x: real, width: int) {
    LeftLimit(width) <= x <= RightLimit(width)
  }

  predicate Valid(t: Trophy) {
    (t.direction == 1 || t.direction == -1) && 0 <= t.moveTime <= TimeToChangeDirection
  }

  /** Clamps a proposed x into the band: first raised to the left limit, then lowered to the right. */
  function Clamp(x: real, width: int): (r: real)
    ensures InBand(r, width)
    ensures InBand(x, width) ==> r == x
    ensures x < LeftLimit(width) ==> r == LeftLimit(width)
    ensures x > RightLimit(width) ==> r == RightLimit(width)
  {
    var a := if x < LeftLimit(width) then LeftLimit(width) else x;
    if a > RightLimit(width) then RightLimit(width) else a
  }

  /** One frame of trophy movement, given how many jerseys are left. */
  function Update(t: Trophy, jerseysLeft: nat, width: int): (r: Trophy)
    ensures jerseysLeft > 0 ==> r == t
    ensures jerseysLeft == 0 ==> InBand(r.pos.x, width) && r.pos.y == t.pos.y
    ensures jerseysLeft == 0 ==> r.moveTime <= TimeToChangeDirection
    ensures jerseysLeft == 0 && t.moveTime >= TimeToChangeDirection ==> r.direction == -t.direction && r.moveTime == 0
    ensures jerseysLeft == 0 && t.moveTime < TimeToChangeDirection ==> r.direction == t.direction && r.moveTime == t.moveTime + 1
    ensures jerseysLeft == 0 && InBand(t.pos.x + (r.direction * MoveSpeed) as real, width) ==>
              r.pos.x == t.pos.x + (r.direction * MoveSpeed) as real
    ensures jerseysLeft == 0 && t.pos.x + (r.direction * MoveSpeed) as real < LeftLimit(width) ==>
              r.pos.x == LeftLimit(width)
    ensures jerseysLeft == 0 && t.pos.x + (r.direction * MoveSpeed) as real > RightLimit(width) ==>
              r.pos.x == RightLimit(width)
    ensures Valid(t) ==> Valid(r)
  {
    if jerseysLeft == 0 then
      var time := t.moveTime + 1;
      var dir := if time > TimeToChangeDirection then t.direction * -1 else t.direction;
      var time' := if time > TimeToChangeDirection then 0 else time;
      var newX := Clamp(t.pos.x + (dir * MoveSpeed) as real, width);
      Trophy(Point(newX, t.pos.y), dir, time')
    else
      t
  }

  /** Back to the start position (width - 200, 200), moving right with a fresh timer. */
  function Reset(t: Trophy, width: int): (r: Trophy)
    ensures Valid(r) && InBand(r.pos.x, width)
    ensures r.direction == 1 && r.moveTime == 0
    ensures r.pos.x == (LeftLimit(width) + RightLimit(width)) / 2.0 && r.pos.y == 200.0
  {
    Trophy(Point((width - 200) as real, 200.0), 1, 0)
  }

  /** Resetting twice is resetting once, whatever the trophy's state. */
  lemma ResetIdempotent(t: Trophy, u: Trophy, width: int)
    ensures Reset(Reset(t, width), width) == Reset(t, width)
    ensures Reset(t, width) == Reset(u, width)
  {
  }

  /** `k` frames with `left` jerseys remaining throughout. */
  function Held(t: Trophy, left: nat, k: nat, width: int): Trophy {
    if k == 0 then t else Update(Held(t, left, k - 1, width), left, width)
  }

  /** After a reset the trophy moves right with its timer counting 1, 2, ..., 180. */
  lemma {:induction false} CountsUpAfterReset(t: Trophy, k: nat, width: int)
    requires k <= TimeToChangeDirection
    ensures Held(Reset(t, width), 0, k, width).direction == 1
    ensures Held(Reset(t, width), 0, k, width).moveTime == k
  {
    if k > 0 {
      CountsUpAfterReset(t, k - 1, width);
    }
  }

  /** After a reset the trophy slides right one pixel a frame from width - 200 and,
      from frame 50 until it turns at frame 181, is held at the right limit. */
  lemma {:induction false} ParksAtRightLimit(t: Trophy, k: nat, width: int)
    requires k <= TimeToChangeDirection
    ensures k <= 50 ==> Held(Reset(t, width), 0, k, width).pos.x == (width - 200 + k) as real
    ensures k >= 50 ==> Held(Reset(t, width), 0, k, width).pos.x == RightLimit(width)
    ensures Held(Reset(t, width), 0, k, width).pos.y == 200.0
  {
    if k > 0 {
      ParksAtRightLimit(t, k - 1, width);
      CountsUpAfterReset(t, k - 1, width);
    }
  }

  /** At frame 181 after a reset the timer passes 180: the trophy turns left and the timer restarts. */
  lemma TurnsAtFrame181(t: Trophy, width: int)
    ensures Held(Reset(t, width), 0, TimeToChangeDirection + 1, width).direction == -1
    ensures Held(Reset(t, width), 0, TimeToChangeDirection + 1, width).moveTime == 0
  {
    CountsUpAfterReset(t, TimeToChangeDirection, width);
  }

  /** While jerseys remain, any number of frames leaves the trophy where it is. */
  lemma {:induction false} FrozenWhileJerseysRemain(t: Trophy, left: nat, k: nat, width: int)
    requires left > 0
    ensures Held(t, left, k, width) == t
  {
    if k > 0 {
      FrozenWhileJerseysRemain(t, left, k - 1, width);
    }
  }
}
